=== FILE: README.md ===
# TreeXplorer `ls.py` in Dafny

TreeXplorer's `ls.py` prints the file structure of the current folder as a
tree. It walks the folder depth-first and lists directories before files.
Each entry is sorted case-insensitively by name. The listing can be narrowed
with `--hidden`, `--exclude`, `--include`, `--types` and `--depth`. Each
line can be decorated with an icon, timestamps and a permission string. The
lines are drawn in box style (`├── `, `└── `, `│   `) or in clean style
(four blanks per level), and are written to `<root>_FileStructure.txt` under
a header.

This project models the core of that script:

- `generate_structure` (filter, sort, indent, recurse);
- `get_permissions`;
- `get_emoji` with its `EMOJIS` table;
- the text `save_output` writes.

The modules are:

- `Strings`: the Python string operations the script relies on.
  - `lower`, string `<=`, `startswith`, `endswith`, substring `in`, `*`, `join`;
  - `strip`, with Python's whitespace set;
  - `split(".")[-1]`.
- `Icons`: `EMOJIS` and `get_emoji`.
- `Permissions`: `get_permissions`. The method keeps the source's three
  loops and is proved equal to the value `Perms`.
- `Tree`: the directory tree, the options, the four filters and the stable
  directories-first sort.
  - A directory is a `Node` holding its children in the order the
    operating system lists them, and a flag saying whether it can be listed.
- `Render`: how one entry becomes one line.
  - the label: icon, name and metadata;
  - the indentation in either style;
  - the prefix handed to children;
  - the access-denied line.
- `Walk`: the traversal.
  - `Listing` and `Entries` define the listing as a sequence of rows.
  - `GenerateStructure` is the loop of the source, with a `continue` per
    filter and a recursive call per directory. It is proved to return
    exactly the text of `Listing`.
- `WalkProps`: what the listing promises.
  - filters and the depth limit always hold;
  - indentation follows the nesting;
  - the lines directly under a directory are its visible children, each
    once, in sorted order;
  - how the connectors are chosen.
- `Pruning`: an entry that fails a filter loses its whole subtree; no
  row lies at or below its path.
- `Scenario`: a worked listing with `-t .py`.
- `Output`: the header and the file text.
  - Splitting the file text at newlines gives back the header lines
    followed by the structure's lines.

Behaviour of the code that a reader might not expect:

- `-d 0` does not restrict anything. The test `args.depth and depth >
  args.depth` treats 0 like an absent limit (`WalkProps.DepthZeroIsUnlimited`).
  - A negative limit hides everything.
  - A positive limit N shows the rows of depth at most N, where the root's
    children have depth 0. The call at depth N still lists its entries, so
    entries appear down to N + 1 levels below the root.
- `--types` filters directories as well as files. A directory whose name
  does not end with a listed suffix is dropped together with its subtree
  (`Scenario.TypesFilterScenario`, `Pruning.PrunedDirectory`).
- `get_permissions` writes the three read bits, then the three write bits,
  then the three execute bits. Mode 0o640 therefore gives `rr-w-----` and
  not the `ls -l` string `rw-r-----` (`Permissions.Mode640`,
  `Permissions.PermsIsTransposedLs`).
- The connector compares the entry's index with the last index of all
  sorted entries, including filtered ones. When the last sorted entry is
  filtered out, no line of that level gets `└── ` (`WalkProps.Connectors`).
- An unreadable subdirectory still gets its own line. The access-denied
  line follows it, indented as its child would be.
- In clean style the rule under the title is one character shorter than
  the title, counted in code points (`Output.HeaderLines`).

In each of these cases the model follows the code.

## Model

| member | source | states |
|---|---|---|
| Strings.StrLeTotal | ls.py:52 | any two names are comparable under Python's string `<=`, so the sort key is a total order |
| Strings.StrLeTrans | ls.py:52 | Python's string `<=` is transitive |
| Strings.LowerAscii | ls.py:52 | `lower()` keeps the length, maps each ASCII capital to its small letter, leaves other characters unchanged, and leaves no ASCII capital |
| Strings.ContainsAt | ls.py:68 | the substring test `inc in path` holds exactly when `inc` occurs at some index of `path` |
| Strings.Strip | ls.py:90 | `strip()` returns a slice of its input whose two ends are not whitespace, and only whitespace was removed on either side |
| Strings.StripAlreadyTrimmed | ls.py:90 | a string without blanks at its ends is unchanged by `strip()`, also after one leading blank |
| Strings.StripIconAndName | ls.py:90 | `f"{emoji} {name}".strip()` is the bare name when there is no icon, and icon, blank, name otherwise |
| Strings.LastSegment | ls.py:25 | `split(".")[-1]` holds no dot, is a suffix of the name, and is the whole name or follows a dot |
| Icons.Emojis | ls.py:8-18 | the `EMOJIS` table: the same nine keys and icons, in the source's order |
| Icons.Get | ls.py:25 | `dict.get(key, default)`: the value of the first pair whose key is `key`, else the default |
| Icons.Icon | ls.py:21-25 | get_emoji: empty without `--emoji`, the folder icon for a directory, otherwise the lookup of the lower-cased last dot segment with the default icon as fallback |
| Icons.LastSegmentAfterDot | ls.py:25 | for `base.ext` with a dot-free `ext`, the last segment is `ext` whatever `base` holds |
| Icons.GetIsValueOrDefault | ls.py:25 | `EMOJIS.get(key, default)` returns the value stored under the first occurrence of `key`, the default when `key` is absent, and so always a table icon or the default |
| Icons.TableIconsVisible | ls.py:8-18 | every icon in `EMOJIS` is non-empty and does not start with whitespace |
| Icons.GetVisible | ls.py:25 | when every icon of a table and the default are non-empty and do not start with whitespace, so is the result of `get` |
| Icons.FileIconVisible | ls.py:25 | with icons on, a file's icon is non-empty and does not start with whitespace, whatever its name |
| Icons.IconShownIffEnabled | ls.py:21-25 | the icon is empty exactly when `--emoji` is off, and never starts with whitespace |
| Icons.IconOfDottedFile | ls.py:25 | a file `base.ext` with a dot-free `ext` gets the table's icon for the lower-cased `ext`, or the default |
| Icons.IconOfUndottedFile | ls.py:25 | a file name without a dot is looked up whole, lower-cased |
| Icons.IconOfFolder | ls.py:25 | with icons on, every directory gets the folder icon whatever its name |
| Permissions.GetPermissions | ls.py:32-41 | nine characters: read flags of owner, group and other at 0-2, write flags at 3-5, execute flags at 6-8, equal to `Perms` |
| Permissions.PermsIsTransposedLs | ls.py:35-41 | the string is the `ls -l` permission string read as a 3x3 matrix and transposed |
| Permissions.Mode640 | ls.py:35-41 | mode 0o640 gives `rr-w-----`, while `ls -l` shows `rw-r-----` |
| Tree.KeyLeTotal | ls.py:52 | any two entries are ordered by the key (is-file, lower-cased name) |
| Tree.KeyLeTrans | ls.py:52 | the key order is transitive |
| Tree.InsertAdds | ls.py:52 | inserting an entry adds exactly that entry and removes none |
| Tree.InsertSorted | ls.py:52 | inserting into a sorted listing keeps it sorted and adds exactly that entry |
| Tree.SortEntries | ls.py:52 | the sorted listing is in key order and is a permutation of the directory's entries |
| Tree.DirectoriesFirst | ls.py:52 | in a sorted listing every directory precedes every file |
| Tree.DepthCut | ls.py:45 | the depth test `args.depth and depth > args.depth`: only a non-zero limit cuts, and only calls deeper than it |
| Tree.KeptHidden | ls.py:59-60 | a dot-name is kept only with `--hidden` |
| Tree.KeptExclude | ls.py:63-64 | a directory named in `--exclude` is dropped; files are never excluded by name |
| Tree.KeptInclude | ls.py:67-70 | with `--include`, an entry is kept when a term occurs in its resolved path or equals its name |
| Tree.KeptType | ls.py:73-74 | with `--types`, an entry of either kind is kept only when its name ends with a listed suffix |
| Tree.Passes | ls.py:58-74 | an entry is shown when it survives all four filters |
| Render.DisplayNameShape | ls.py:83-90 | for a name without blanks at its ends, the displayed name is the bare name without icons and icon, blank, name with icons |
| Render.DisplayName | ls.py:90 | the icon, a blank and the name, stripped |
| Render.MetaFields | ls.py:91-100 | the enabled details, in the order created, modified, accessed, permissions |
| Render.Decorate | ls.py:102-103 | the details, if any, in parentheses joined by " \| " after the name |
| Render.Label | ls.py:89-103 | the whole label: the displayed name decorated with the enabled details |
| Render.Indent | ls.py:105-110 | four blanks per level in clean style; otherwise the prefix with `├── ` before the last index of all sorted entries and `└── ` at it |
| Render.ChildPrefix | ls.py:105-111 | four blanks per level plus one in clean style; otherwise the prefix with `│   ` before the last index and four blanks at it |
| Render.LabelWithoutDetails | ls.py:91-103 | without any detail flag the label is just the displayed name, with no parenthesised part |
| Render.LabelAllDetails | ls.py:77-103 | `--all-details` shows all four details in the order created, modified, accessed, permissions, in parentheses joined by " \| " |
| Render.LabelHasDetailsIffFlag | ls.py:91-103 | one metadata field per enabled flag; for a displayed name not ending in `)`, the label ends with ")" exactly when some detail is enabled |
| Walk.FormatEntry | ls.py:76-103 | the label the loop body builds, with `get_permissions` as the method, equals `Label` |
| Walk.CollectMetadata | ls.py:91-100 | the four conditional appends give the enabled details in the order created, modified, accessed, permissions, equal to `MetaFields` |
| Walk.EntriesStep | ls.py:55-117 | one iteration adds nothing for a filtered entry, and otherwise its line followed by its subtree's lines |
| Walk.VisitEntry | ls.py:76-117 | for an entry that passed the filters, the lines produced are its own line, then the recursive call's lines for a directory |
| Walk.Listing | ls.py:45-122 | the rows of one call: none past the depth limit, one access-denied row for an unlistable directory, otherwise the rows of its sorted entries |
| Walk.Entries | ls.py:55-117 | the rows of the sorted entries from index `i`: nothing for a filtered entry, otherwise its row, its subtree one level deeper, then the rest |
| Walk.GenerateStructure | ls.py:44-122 | the loop with its four `continue`s returns exactly the text of the rows `Listing` defines |
| Walk.Structure | ls.py:165-166 | the structure `main` collects is the listing of the root at depth 0 with an empty prefix |
| WalkProps.ListingWellFormed | ls.py:44-122 | every row is within the depth limit and not shallower than its call; every entry passed all filters; clean indents are four blanks per level; box-style lines start with the inherited prefix, grow four characters per level and end in a connector |
| WalkProps.EntriesWellFormed | ls.py:55-117 | the same for the rows of the entries from index `i` on |
| WalkProps.LevelStep | ls.py:55-117 | the rows one iteration puts at the current level are the entry's own row if it passes the filters, none otherwise; its subtree adds no row at that level |
| WalkProps.FiltersHold | ls.py:58-74 | no shown entry is a dot-name without `--hidden` or an excluded directory; each matches an include term or name when `--include` is set, and a suffix when `--types` is set |
| WalkProps.DepthLimit | ls.py:45-46 | with `-d N` and N > 0 no row is deeper than N; with N < 0 there is no row at all |
| WalkProps.DepthZeroIsUnlimited | ls.py:45 | `-d 0` lists exactly what no `-d` lists |
| WalkProps.EntriesDepthZero | ls.py:55-117 | the same for the entries from index `i` on |
| WalkProps.VisibleCount | ls.py:58-74 | an entry is kept as often as it occurs when it passes the filters, and never otherwise |
| WalkProps.VisiblePermutation | ls.py:52-74 | filtering permuted entries gives a permutation of the filtered entries |
| WalkProps.VisibleSorted | ls.py:52-74 | filtering a sorted listing keeps it sorted and adds nothing |
| WalkProps.EntriesLevel | ls.py:55-117 | the entry rows at the current depth are the visible entries from index `i` on, in order |
| WalkProps.LevelIsVisibleSorted | ls.py:52-117 | the lines directly under a directory are its visible sorted entries in order; they are sorted, and they are the directory's visible children, each shown once |
| WalkProps.EntriesConnectors | ls.py:105-111 | at the current level every entry row but the last gets `├── `; the last gets `└── ` exactly when the last sorted entry passes the filters |
| WalkProps.Connectors | ls.py:105-111 | the same for a whole directory; if its last sorted entry passes, the level is not empty |
| WalkProps.EntriesSubtree | ls.py:105-117 | in box style a shown directory gives its own row, then its subtree, then the later rows; every subtree row starts with the prefix plus "│   " unless the entry is the last of all sorted entries, so a filtered last entry leaves the "│" continuation under the last shown directory |
| WalkProps.UnreadableDirectory | ls.py:119-120 | an unreadable directory within the depth limit gives exactly one line: the prefix, the access-denied marker and its path |
| Pruning.ListingUnder | ls.py:45-122 | every row of a directory's listing has the directory's own path or a path inside it |
| Pruning.EntriesUnder | ls.py:55-117 | the same for the rows of the entries from index `i` on |
| Pruning.NotUnderSibling | ls.py:56 | for distinct, non-empty, slash-free names `a` and `b`, no path at or below `P + a` is at or below `P + b` |
| Pruning.EntriesPruned | ls.py:58-74 | for a child that fails a filter, no row of the entries from index `i` on has its path or a path inside it |
| Pruning.PrunedDirectory | ls.py:58-74 | for a child that fails a filter, among children with distinct, non-empty, slash-free names, no row of the listing has its path or a path below it: neither its own row nor any row of its subtree |
| Scenario.ScenarioSort | ls.py:52 | `a.py`, `b.txt` and directory `c` sort as `c`, `a.py`, `b.txt` |
| Scenario.ScenarioFilters | ls.py:73 | with `-t .py` only `a.py` passes; the directory `c` is filtered too |
| Scenario.ScenarioLabel | ls.py:83-103 | without icons and details the label of `a.py` is `a.py` |
| Scenario.ScenarioTail | ls.py:55-117 | from index 1 on, the only row is `a.py` with the `├── ` connector |
| Scenario.ScenarioRows | ls.py:44-122 | the whole listing is the single row for `a.py`, with `├── ` because it is not the last sorted entry |
| Scenario.TypesFilterScenario | ls.py:44-122 | the output is the single line `├── a.py` |
| Output.SplitJoin | ls.py:133 | splitting `"\n".join(lines)` at newlines gives back `lines` when the list is non-empty and no line holds a newline |
| Output.HeaderLines | ls.py:127-130 | the header lines hold no newline; the clean-style rule is one code point shorter than the title |
| Output.FileLines | ls.py:125-133 | the saved text splits into the header lines followed by exactly the structure's lines, or one empty piece when there are none |
| Output.Header | ls.py:127-130 | the header: title with " (File Structure)" and a rule of `len(root)+18` equals signs in clean style, the bare title otherwise, each line ending in a newline |
| Output.FileText | ls.py:133 | the header followed by the structure lines joined with newlines |

## Left out

- The file system is not modelled. `os.scandir`, `entry.stat()`, `os.stat` and `Path.resolve` are replaced by an in-memory `Node` tree with stat fields. The resolved path is `Tree.Join` of the parent path and the name.
  - Symbolic links are not modelled: no resolution of links, and no cycles.
  - Entries that are neither file nor directory are not modelled. A broken link is one; it sorts as a non-file but is not descended into.
- A `PermissionError` raised while reading one entry's metadata is not modelled. The source then abandons the rest of that directory's loop and appends the access-denied line after the lines already produced. Only an unlistable directory is modelled, by its `readable` flag.
  - Other exceptions are not modelled either; in the source they end the program.
- `format_time` depends on the clock's time zone. It is a parameter `fmt` of the rendering functions.
- `parse_arguments` (argparse) is not modelled; its result is the `Tree.Config` value.
- The `ThreadPoolExecutor` in `main` runs one call and waits for it. `Walk.Structure` models it as a direct call.
- Printing and writing the file are not modelled. `Output.FileText` is the string handed to `f.write`. The error message printed when saving fails is not modelled.
- Strings.Lower: lower-cases ASCII letters only. Python's `str.lower` also maps other Unicode letters, so the sort order and the icon key of non-ASCII names may differ.
- Tree.SortEntries: its contract states sortedness and permutation. It does not state stability. The definition itself keeps entries with equal keys in the order of the directory listing, as Python's sort does.
- Output.HeaderLines: the rule is compared with the title in code points. Terminal display width is not modelled.
- Pruning.PrunedDirectory: requires the directory's children to have non-empty, slash-free, distinct names, as a real directory's entries do. The `Node` type does not enforce this.

=== FILE: icons.dfy ===
/** `EMOJIS` and `get_emoji` (ls.py:8-25): the icon put in front of an entry's
    name. */
module Icons {
  import opened Strings

  const Folder: string := "\U{1F4C1}"
  const Snake: string := "\U{1F40D}"
  const Page: string := "\U{1F4C4}"
  const Picture: string := "\U{1F5BC}\U{FE0F}"
  const Note: string := "\U{1F3B5}"
  const CardBox: string := "\U{1F5C3}\U{FE0F}"
  const Scroll: string := "\U{1F4DC}"

  /** The icon table `EMOJIS`, keyed by lower-cased extension, in the
      source's order. Its "folder" and "default" keys are ordinary keys: a
      file named `x.folder` gets the folder icon. */
  const Emojis: seq<(string, string)> := [
    ("folder", Folder), ("py", Snake), ("txt", Page), ("jpg", Picture),
    ("png", Picture), ("mp3", Note), ("csv", CardBox), ("log", Scroll),
    ("default", Page)]

  /** `dict.get(key, default)` on a table given as key/value pairs. */
  function Get(table: seq<(string, string)>, key: string, default: string): string {
    if table == [] then default
    else if table[0].0 == key then table[0].1
    else Get(table[1..], key, default)
  }

  /** The key a file name is looked up under: its text after the last dot,
      lower-cased. */
  function ExtensionKey(name: string): string {
    Lower(LastSegment(name))
  }

  /** get_emoji: no icon when icons are off, the folder icon for a
      directory, otherwise the table's icon for the extension, falling back
      to the default icon. */
  function Icon(name: string, isFolder: bool, useEmoji: bool): string {
    if !useEmoji then ""
    else if isFolder then Folder
    else Get(Emojis, ExtensionKey(name), Page)
  }

  /** A lookup returns the value stored under the first occurrence of
      `key`, the default when `key` is absent, and so always one of the
      table's values or the default. */
  lemma {:induction false} GetIsValueOrDefault(table: seq<(string, string)>, key: string, default: string)
    ensures (forall k :: 0 <= k < |table| ==> table[k].0 != key) ==> Get(table, key, default) == default
    ensures forall k ::
              0 <= k < |table| && table[k].0 == key && (forall j :: 0 <= j < k ==> table[j].0 != key) ==>
                Get(table, key, default) == table[k].1
    ensures Get(table, key, default) == default
      || exists k :: 0 <= k < |table| && table[k].1 == Get(table, key, default)
  {
    if table != [] && table[0].0 != key {
      var rest := table[1..];
      GetIsValueOrDefault(rest, key, default);
      if forall k :: 0 <= k < |table| ==> table[k].0 != key {
        forall k | 0 <= k < |rest| ensures rest[k].0 != key {
          assert rest[k] == table[k + 1];
        }
      }
      forall k | 0 <= k < |table| && table[k].0 == key && (forall j :: 0 <= j < k ==> table[j].0 != key)
        ensures Get(table, key, default) == table[k].1
      {
        assert rest[k - 1] == table[k];
        forall j | 0 <= j < k - 1 ensures rest[j].0 != key {
          assert rest[j] == table[j + 1];
        }
      }
      if Get(table, key, default) != default {
        var k :| 0 <= k < |rest| && rest[k].1 == Get(table, key, default);
        assert table[k + 1].1 == Get(table, key, default);
      }
    }
  }

  /** Every icon of the table is non-empty and starts with a non-blank
      character. */
  lemma TableIconsVisible()
    ensures forall k :: 0 <= k < |Emojis| ==> Emojis[k].1 != "" && !IsSpace(Emojis[k].1[0])
  {
  }

  /** A lookup in a table of visible icons, with a visible default, gives a
      visible icon. */
  lemma {:induction false} GetVisible(table: seq<(string, string)>, key: string, default: string)
    requires default != "" && !IsSpace(default[0])
    requires forall k :: 0 <= k < |table| ==> table[k].1 != "" && !IsSpace(table[k].1[0])
    ensures Get(table, key, default) != "" && !IsSpace(Get(table, key, default)[0])
  {
    if table != [] && table[0].0 != key {
      GetVisible(table[1..], key, default);
    }
  }

  /** A file's icon with icons on is visible. */
  lemma FileIconVisible(name: string)
    ensures Icon(name, false, true) != "" && !IsSpace(Icon(name, false, true)[0])
  {
    TableIconsVisible();
    GetVisible(Emojis, ExtensionKey(name), Page);
  }

  /** An entry shows an icon exactly when icons are on, and the icon never
      starts with a blank. */
  lemma IconShownIffEnabled(name: string, isFolder: bool, useEmoji: bool)
    ensures Icon(name, isFolder, useEmoji) == "" <==> !useEmoji
    ensures useEmoji ==> !IsSpace(Icon(name, isFolder, useEmoji)[0])
  {
    if !useEmoji {
      assert Icon(name, isFolder, useEmoji) == "";
    } else if isFolder {
      assert Icon(name, isFolder, useEmoji) == Folder && Folder[0] == '\U{1F4C1}';
    } else {
      FileIconVisible(name);
    }
  }

  /** `split(".")[-1]` of a name with a dot is the text after its last dot. */
  lemma {:induction false} LastSegmentAfterDot(base: string, ext: string)
    requires '.' !in ext
    ensures LastSegment(base + "." + ext) == ext
  {
    var s := base + "." + ext;
    if ext != [] {
      var init := ext[..|ext| - 1];
      assert s[..|s| - 1] == base + "." + init;
      LastSegmentAfterDot(base, init);
      assert ext == init + [ext[|ext| - 1]];
    }
  }

  /** A file whose name ends in `.ext` gets the table's icon for `ext`
      lower-cased, or the default icon when the table has no such key. */
  lemma IconOfDottedFile(base: string, ext: string)
    requires '.' !in ext
    ensures Icon(base + "." + ext, false, true) == Get(Emojis, Lower(ext), Page)
  {
    LastSegmentAfterDot(base, ext);
  }

  /** A file name without a dot is looked up as a whole, lower-cased. */
  lemma IconOfUndottedFile(name: string)
    requires '.' !in name
    ensures Icon(name, false, true) == Get(Emojis, Lower(name), Page)
  {
    assert LastSegment(name) == name;
  }

  /** Directories always get the folder icon, whatever their name. */
  lemma IconOfFolder(name: string)
    ensures Icon(name, true, true) == Folder
  {
  }
}

=== FILE: output.dfy ===
/** `save_output` (ls.py:125-133): the text written to the output file, a
    header naming the root folder followed by the structure's lines joined
    with newlines. */
module Output {
  import opened Strings

  const OpenFolder: string := "\U{1F4C2}"
  const TitleTail: string := " (File Structure)"

  /** The first header line: the open-folder icon and the root folder's
      name, followed in clean style by " (File Structure)". */
  function Title(rootName: string, clean: bool): string {
    OpenFolder + " " + rootName + (if clean then TitleTail else "")
  }

  /** `'=' * n`. */
  function Rule(n: nat): string {
    seq(n, _ => '=')
  }

  /** The header (ls.py:127-130): in clean style the title, then a rule of
      `len(root_name) + 18` equals signs, each on its own line; otherwise
      the title line alone. */
  function Header(rootName: string, clean: bool): string {
    if clean then Title(rootName, true) + "\n" + Rule(|rootName| + 18) + "\n"
    else Title(rootName, false) + "\n"
  }

  /** What `f.write` receives (ls.py:133). */
  function FileText(output: seq<string>, rootName: string, clean: bool): string {
    Header(rootName, clean) + JoinWith("\n", output)
  }

  /** Python's `s.split("\n")`: the pieces between newlines, always at
      least one. */
  function SplitLines(s: string): (r: seq<string>)
    ensures |r| >= 1
  {
    if s == [] then [[]]
    else
      var rest := SplitLines(s[1..]);
      if s[0] == '\n' then [[]] + rest else [[s[0]] + rest[0]] + rest[1..]
  }

  /** A piece without a newline, then a newline, then the rest. */
  lemma {:induction false} SplitAfter(a: string, b: string)
    requires '\n' !in a
    ensures SplitLines(a + "\n" + b) == [a] + SplitLines(b)
  {
    if a == [] {
      assert a + "\n" + b == "\n" + b;
      assert ("\n" + b)[1..] == b;
    } else {
      SplitAfter(a[1..], b);
      assert (a + "\n" + b)[1..] == a[1..] + "\n" + b;
      assert [a[0]] + a[1..] == a;
    }
  }

  lemma {:induction false} SplitSingle(a: string)
    requires '\n' !in a
    ensures SplitLines(a) == [a]
  {
    if a != [] {
      SplitSingle(a[1..]);
      assert [a[0]] + a[1..] == a;
    }
  }

  /** Splitting the joined lines gives them back, as long as none of them
      holds a newline itself. */
  lemma {:induction false} SplitJoin(lines: seq<string>)
    requires lines != []
    requires forall k :: 0 <= k < |lines| ==> '\n' !in lines[k]
    ensures SplitLines(JoinWith("\n", lines)) == lines
  {
    if |lines| == 1 {
      SplitSingle(lines[0]);
    } else {
      SplitJoin(lines[1..]);
      SplitAfter(lines[0], JoinWith("\n", lines[1..]));
      assert lines == [lines[0]] + lines[1..];
    }
  }

  /** Neither header line holds a newline, and in clean style the rule is
      one character shorter than the title line, counted in code points. */
  lemma HeaderLines(rootName: string, clean: bool)
    requires '\n' !in rootName
    ensures '\n' !in Title(rootName, clean) && '\n' !in Rule(|rootName| + 18)
    ensures clean ==> |Rule(|rootName| + 18)| + 1 == |Title(rootName, true)|
  {
  }

  /** The lines of the saved file are the header's lines followed by
      exactly the structure's lines; with no structure lines the file ends
      right after the header's final newline. */
  lemma FileLines(output: seq<string>, rootName: string, clean: bool)
    requires '\n' !in rootName
    requires forall k :: 0 <= k < |output| ==> '\n' !in output[k]
    ensures SplitLines(FileText(output, rootName, clean))
      == (if clean then [Title(rootName, true), Rule(|rootName| + 18)] else [Title(rootName, false)])
         + (if output == [] then [""] else output)
  {
    var body := JoinWith("\n", output);
    var rest := if output == [] then [""] else output;
    assert SplitLines(body) == rest by {
      if output == [] {
        SplitSingle(body);
      } else {
        SplitJoin(output);
      }
    }
    var title := Title(rootName, clean);
    HeaderLines(rootName, clean);
    if clean {
      var rule := Rule(|rootName| + 18);
      assert SplitLines(rule + "\n" + body) == [rule] + rest by {
        SplitAfter(rule, body);
      }
      assert FileText(output, rootName, clean) == title + "\n" + (rule + "\n" + body);
      SplitAfter(title, rule + "\n" + body);
      assert [title] + ([rule] + rest) == [title, rule] + rest;
    } else {
      assert FileText(output, rootName, clean) == title + "\n" + body;
      SplitAfter(title, body);
    }
  }
}

=== FILE: permissions.dfy ===
/** `get_permissions` (ls.py:32-41): the nine-character permission string of
    a stat mode. The source writes the three read bits (owner, group, other),
    then the three write bits, then the three execute bits, so the string is
    grouped by kind of access, not by class of user as `ls -l` does. */
module Permissions {

  /** 0o400, 0o040, 0o004: read for owner, group, other. */
  const ReadMasks: seq<nat> := [256, 32, 4]
  /** 0o200, 0o020, 0o002: write for owner, group, other. */
  const WriteMasks: seq<nat> := [128, 16, 2]
  /** 0o100, 0o010, 0o001: execute for owner, group, other. */
  const ExecMasks: seq<nat> := [64, 8, 1]

  /** Python's `mode & mask` is non-zero, for a mask with a single bit set. */
  predicate HasBit(mode: nat, mask: nat)
    requires mask > 0
  {
    (mode / mask) % 2 == 1
  }

  function Flag(mode: nat, mask: nat, letter: char): char
    requires mask > 0
  {
    if HasBit(mode, mask) then letter else '-'
  }

  /** The string the source returns, as a value: read flags, write flags,
      execute flags. */
  function Perms(mode: nat): string {
    seq(3, k requires 0 <= k < 3 => Flag(mode, ReadMasks[k], 'r'))
    + seq(3, k requires 0 <= k < 3 => Flag(mode, WriteMasks[k], 'w'))
    + seq(3, k requires 0 <= k < 3 => Flag(mode, ExecMasks[k], 'x'))
  }

  /** The three loops of get_permissions, each appending one flag per class
      of user, and the final re-join of the three slices. */
  method GetPermissions(mode: nat) returns (s: string)
    ensures |s| == 9
    ensures forall k :: 0 <= k < 3 ==>
      s[k] == (if HasBit(mode, ReadMasks[k]) then 'r' else '-')
      && s[3 + k] == (if HasBit(mode, WriteMasks[k]) then 'w' else '-')
      && s[6 + k] == (if HasBit(mode, ExecMasks[k]) then 'x' else '-')
    ensures s == Perms(mode)
  {
    var permissions: seq<char> := [];
    for j := 0 to 3
      invariant |permissions| == j
      invariant forall k :: 0 <= k < j ==> permissions[k] == Flag(mode, ReadMasks[k], 'r')
    {
      permissions := permissions + [if HasBit(mode, ReadMasks[j]) then 'r' else '-'];
    }
    for j := 0 to 3
      invariant |permissions| == 3 + j
      invariant forall k :: 0 <= k < 3 ==> permissions[k] == Flag(mode, ReadMasks[k], 'r')
      invariant forall k :: 0 <= k < j ==> permissions[3 + k] == Flag(mode, WriteMasks[k], 'w')
    {
      permissions := permissions + [if HasBit(mode, WriteMasks[j]) then 'w' else '-'];
    }
    for j := 0 to 3
      invariant |permissions| == 6 + j
      invariant forall k :: 0 <= k < 3 ==> permissions[k] == Flag(mode, ReadMasks[k], 'r')
      invariant forall k :: 0 <= k < 3 ==> permissions[3 + k] == Flag(mode, WriteMasks[k], 'w')
      invariant forall k :: 0 <= k < j ==> permissions[6 + k] == Flag(mode, ExecMasks[k], 'x')
    {
      permissions := permissions + [if HasBit(mode, ExecMasks[j]) then 'x' else '-'];
    }
    s := permissions[..3] + permissions[3..6] + permissions[6..];
    assert s == permissions;
    assert s == Perms(mode);
  }

  /** The conventional `ls -l` layout, for comparison: for each of owner,
      group and other, the read, write and execute flags of that class. */
  function LsPerms(mode: nat): string {
    var triad := (read: nat) requires read >= 4 =>
      [Flag(mode, read, 'r'), Flag(mode, read / 2, 'w'), Flag(mode, read / 4, 'x')];
    triad(256) + triad(32) + triad(4)
  }

  /** A nine-character string read as a 3x3 matrix, row by row, and
      written out column by column. */
  function Transpose(s: string): string
    requires |s| == 9
  {
    [s[0], s[3], s[6], s[1], s[4], s[7], s[2], s[5], s[8]]
  }

  /** The source's string is the `ls -l` string transposed: class `c`'s flag
      for access kind `a` sits at `3 * a + c` instead of `3 * c + a`. */
  lemma PermsIsTransposedLs(mode: nat)
    ensures |Perms(mode)| == 9 && |LsPerms(mode)| == 9
    ensures Perms(mode) == Transpose(LsPerms(mode))
    ensures LsPerms(mode) == Transpose(Perms(mode))
  {
    PermsFlags(mode);
  }

  /** Both strings written out flag by flag. */
  lemma PermsFlags(mode: nat)
    ensures Perms(mode) == [Flag(mode, 256, 'r'), Flag(mode, 32, 'r'), Flag(mode, 4, 'r'),
                            Flag(mode, 128, 'w'), Flag(mode, 16, 'w'), Flag(mode, 2, 'w'),
                            Flag(mode, 64, 'x'), Flag(mode, 8, 'x'), Flag(mode, 1, 'x')]
    ensures LsPerms(mode) == [Flag(mode, 256, 'r'), Flag(mode, 128, 'w'), Flag(mode, 64, 'x'),
                              Flag(mode, 32, 'r'), Flag(mode, 16, 'w'), Flag(mode, 8, 'x'),
                              Flag(mode, 4, 'r'), Flag(mode, 2, 'w'), Flag(mode, 1, 'x')]
  {
  }

  /** Mode 0o640 (owner read-write, group read) renders as "rr-w-----",
      where `ls -l` shows "rw-r-----". */
  lemma Mode640()
    ensures Perms(416) == "rr-w-----"
    ensures LsPerms(416) == "rw-r-----"
  {
  }
}

=== FILE: pruning.dfy ===
/** A filtered entry loses its whole subtree (ls.py:58-74): the `continue`
    skips the recursive call, so no row of the listing lies at or below the
    path of an entry that fails a filter. Stated over the rows' resolved
    paths. */
module Pruning {
  import opened Strings
  import opened Tree
  import opened Render
  import opened Walk

  /** `q` is the path `p` itself or a path inside it. */
  predicate Under(p: string, q: string) {
    q == p || StartsWith(q, Join(p, ""))
  }

  /** A child's path is the parent's path with its separator, then the name. */
  lemma JoinSplit(p: string, name: string)
    ensures Join(p, name) == Join(p, "") + name
  {
  }

  lemma StartsWithTrans(s: string, a: string, b: string)
    requires StartsWith(s, a) && StartsWith(a, b)
    ensures StartsWith(s, b)
  {
    assert s[..|b|] == s[..|a|][..|b|];
  }

  /** What lies inside a child of `p` lies inside `p`. */
  lemma UnderChild(p: string, name: string, q: string)
    requires Under(Join(p, name), q)
    ensures StartsWith(q, Join(p, ""))
  {
    var c := Join(p, name);
    JoinSplit(p, name);
    assert StartsWith(c, Join(p, "")) by {
      assert c[..|Join(p, "")|] == Join(p, "");
    }
    if q != c {
      assert StartsWith(Join(c, ""), c) by {
        assert Join(c, "")[..|c|] == c;
      }
      StartsWithTrans(q, Join(c, ""), c);
      StartsWithTrans(q, c, Join(p, ""));
    }
  }

  /** Every row of the listing of the directory at `path` lies at or below
      `path`. */
  lemma {:induction false} ListingUnder(cfg: Config, dir: Node, path: string, depth: nat, prefix: string)
    requires dir.Dir?
    ensures forall r :: r in Listing(cfg, dir, path, depth, prefix) ==> Under(path, r.path)
    decreases dir, 1
  {
    if !DepthCut(cfg, depth) && dir.readable {
      SortMembers(dir.children);
      EntriesUnder(cfg, dir, SortEntries(dir.children), 0, path, depth, prefix);
    }
  }

  lemma {:induction false} EntriesUnder(cfg: Config, dir: Node, entries: seq<Node>, i: nat, path: string, depth: nat, prefix: string)
    requires dir.Dir? && i <= |entries|
    requires forall e :: e in entries ==> e in dir.children
    ensures forall r :: r in Entries(cfg, dir, entries, i, path, depth, prefix) ==> Under(path, r.path)
    decreases dir, 0, |entries| - i
  {
    if i < |entries| {
      var e := entries[i];
      assert e in entries;
      var entryPath := Join(path, e.name);
      EntriesUnder(cfg, dir, entries, i + 1, path, depth, prefix);
      if Passes(cfg, e, entryPath) {
        assert Under(path, entryPath) by {
          UnderChild(path, e.name, entryPath);
        }
        if e.Dir? {
          var childPrefix := ChildPrefix(cfg, i, |entries| - 1, depth, prefix);
          ListingUnder(cfg, e, entryPath, depth + 1, childPrefix);
          forall r | r in Listing(cfg, e, entryPath, depth + 1, childPrefix) ensures Under(path, r.path) {
            UnderChild(path, e.name, r.path);
          }
        }
      }
    }
  }

  /** A path that continues `x` with a slash starts with `x`, and the slash
      comes right after it. */
  lemma SlashAfter(s: string, x: string)
    ensures StartsWith(s, x + "/") ==> StartsWith(s, x) && s[|x|] == '/'
  {
    if StartsWith(s, x + "/") {
      assert s[..|x|] == s[..|x + "/"|][..|x|];
      assert s[|x|] == s[..|x + "/"|][|x|];
    }
  }

  /** A slash-free name that differs from another is never confused with it:
      what lies at or below `P + a` lies neither at `P + b` nor below it. */
  lemma NotUnderSibling(P: string, a: string, b: string, s: string)
    requires a != [] && b != [] && '/' !in a && '/' !in b && a != b
    requires s == P + a || StartsWith(s, P + a + "/")
    ensures s != P + b && !StartsWith(s, P + b + "/")
  {
    var A := P + a;
    var B := P + b;
    SlashAfter(s, A);
    SlashAfter(s, B);
    assert StartsWith(s, A) && (s == A || s[|A|] == '/');
    if |a| == |b| {
      assert A[|P|..] == a && B[|P|..] == b;
    } else if |a| < |b| {
      assert B[|A|] == b[|a|] && b[|a|] in b;
    } else {
      assert A[|B|] == a[|b|] && a[|b|] in a;
      assert s[|B|] == s[..|A|][|B|];
    }
  }

  /** The names of the children of `dir` are non-empty, slash-free and
      distinct, as the entries of a real directory are. */
  predicate SaneNames(dir: Node)
    requires dir.Dir?
  {
    (forall c :: c in dir.children ==> c.name != [] && '/' !in c.name)
    && (forall i, j :: 0 <= i < j < |dir.children| ==> dir.children[i].name != dir.children[j].name)
  }

  /** The rows of a passing entry `e` avoid the path of a failing sibling
      `d`. */
  lemma SiblingRowsAvoid(cfg: Config, dir: Node, e: Node, d: Node, path: string, q: string)
    requires dir.Dir? && SaneNames(dir)
    requires e in dir.children && d in dir.children
    requires Passes(cfg, e, Join(path, e.name)) && !Passes(cfg, d, Join(path, d.name))
    requires Under(Join(path, e.name), q)
    ensures q != Join(path, d.name) && !StartsWith(q, Join(path, d.name) + "/")
  {
    var k :| 0 <= k < |dir.children| && dir.children[k] == e;
    var l :| 0 <= l < |dir.children| && dir.children[l] == d;
    assert e.name != d.name by {
      if k < l {
        assert dir.children[k].name != dir.children[l].name;
      } else if l < k {
        assert dir.children[l].name != dir.children[k].name;
      }
    }
    var P := Join(path, "");
    JoinSplit(path, e.name);
    JoinSplit(path, d.name);
    var E := P + e.name;
    assert E[|E| - 1] == e.name[|e.name| - 1];
    assert e.name[|e.name| - 1] in e.name;
    assert Join(E, "") == E + "/";
    NotUnderSibling(P, e.name, d.name, q);
  }

  lemma {:induction false} EntriesPruned(cfg: Config, dir: Node, entries: seq<Node>, i: nat, path: string, depth: nat, prefix: string, d: Node)
    requires dir.Dir? && SaneNames(dir) && i <= |entries|
    requires forall e :: e in entries ==> e in dir.children
    requires d in dir.children && !Passes(cfg, d, Join(path, d.name))
    ensures forall r :: r in Entries(cfg, dir, entries, i, path, depth, prefix) ==>
      r.path != Join(path, d.name) && !StartsWith(r.path, Join(path, d.name) + "/")
    decreases |entries| - i
  {
    if i < |entries| {
      var e := entries[i];
      assert e in entries;
      var entryPath := Join(path, e.name);
      EntriesPruned(cfg, dir, entries, i + 1, path, depth, prefix, d);
      if Passes(cfg, e, entryPath) {
        SiblingRowsAvoid(cfg, dir, e, d, path, entryPath);
        if e.Dir? {
          var childPrefix := ChildPrefix(cfg, i, |entries| - 1, depth, prefix);
          ListingUnder(cfg, e, entryPath, depth + 1, childPrefix);
          forall r | r in Listing(cfg, e, entryPath, depth + 1, childPrefix)
            ensures r.path != Join(path, d.name) && !StartsWith(r.path, Join(path, d.name) + "/")
          {
            SiblingRowsAvoid(cfg, dir, e, d, path, r.path);
          }
        }
      }
    }
  }

  /** A child `d` that fails a filter contributes no row to the listing of
      its directory: neither its own row nor any row of its subtree. */
  lemma PrunedDirectory(cfg: Config, dir: Node, path: string, depth: nat, prefix: string, d: Node)
    requires dir.Dir? && SaneNames(dir)
    requires d in dir.children && !Passes(cfg, d, Join(path, d.name))
    ensures forall r :: r in Listing(cfg, dir, path, depth, prefix) ==>
      r.path != Join(path, d.name) && !StartsWith(r.path, Join(path, d.name) + "/")
  {
    if !DepthCut(cfg, depth) {
      if dir.readable {
        SortMembers(dir.children);
        EntriesPruned(cfg, dir, SortEntries(dir.children), 0, path, depth, prefix, d);
      } else {
        JoinSplit(path, d.name);
      }
    }
  }
}

=== FILE: render.dfy ===
/** How one visited entry becomes one line (ls.py:76-113, 120): the label
    (icon, name, optional metadata), the indentation in clean or box style,
    and the continuation prefix handed to the entry's children. */
module Render {
  import opened Strings
  import opened Tree
  import Icons
  import Permissions

  const Tee: string := "\U{251C}\U{2500}\U{2500} "
  const Elbow: string := "\U{2514}\U{2500}\U{2500} "
  const Bar: string := "\U{2502}   "
  const Blank: string := "    "

  const CreatedTag: string := "\U{1F4C5} Created: "
  const ModifiedTag: string := "\U{1F4DD} Modified: "
  const AccessedTag: string := "\U{1F440} Accessed: "
  const PermsTag: string := "\U{1F511} Perms: "
  const DeniedTag: string := "\U{1F6AB} Access Denied: "

  /** ls.py:77-80: each detail is shown when its own flag or `--all-details`
      is set. */
  predicate ShowCreated(cfg: Config) { cfg.creationDate || cfg.allDetails }
  predicate ShowModified(cfg: Config) { cfg.updatedDate || cfg.allDetails }
  predicate ShowAccessed(cfg: Config) { cfg.accessedTime || cfg.allDetails }
  predicate ShowPerms(cfg: Config) { cfg.permissions || cfg.allDetails }

  /** `"    " * n`. */
  function Spaces(n: nat): string {
    Repeat(Blank, n)
  }

  /** ls.py:90: `f"{emoji} {entry.name}".strip()`. */
  function DisplayName(cfg: Config, e: Node): string {
    Strip(Icons.Icon(e.name, e.Dir?, cfg.emoji) + " " + e.name)
  }

  /** ls.py:91-100: the enabled details, always in the order created,
      modified, accessed, permissions. `fmt` is `format_time`, and `perms`
      the string get_permissions returned. */
  function MetaFields(cfg: Config, fmt: real -> string, stat: Stat, perms: string): seq<string> {
    (if ShowCreated(cfg) then [CreatedTag + fmt(stat.ctime)] else [])
    + (if ShowModified(cfg) then [ModifiedTag + fmt(stat.mtime)] else [])
    + (if ShowAccessed(cfg) then [AccessedTag + fmt(stat.atime)] else [])
    + (if ShowPerms(cfg) then [PermsTag + perms] else [])
  }

  /** ls.py:102-103: the details, if any, in parentheses joined by " | ". */
  function Decorate(name: string, fields: seq<string>): string {
    if fields == [] then name else name + " (" + JoinWith(" | ", fields) + ")"
  }

  /** The whole label of an entry. */
  function Label(cfg: Config, fmt: real -> string, e: Node): string {
    Decorate(DisplayName(cfg, e), MetaFields(cfg, fmt, e.stat, Permissions.Perms(e.stat.mode)))
  }

  /** ls.py:106-110: the text in front of the label of the `i`-th sorted
      entry. */
  function Indent(cfg: Config, i: int, lastIndex: int, depth: nat, prefix: string): string {
    if cfg.clean then Spaces(depth)
    else prefix + (if i < lastIndex then Tee else Elbow)
  }

  /** ls.py:106-111: the prefix handed down to the `i`-th entry's children. */
  function ChildPrefix(cfg: Config, i: int, lastIndex: int, depth: nat, prefix: string): string {
    if cfg.clean then Spaces(depth + 1)
    else prefix + (if i < lastIndex then Bar else Blank)
  }

  /** One output line, before it is turned into text: an entry at `depth`
      with its indentation, or the access-denied line of the directory at
      `path` listed at `depth`. */
  datatype Row =
    | Entry(indent: string, node: Node, path: string, depth: nat)
    | Denied(prefix: string, path: string, depth: nat)

  /** ls.py:113 and ls.py:120. */
  function Text(cfg: Config, fmt: real -> string, row: Row): string {
    match row
    case Entry(indent, node, _, _) => indent + Label(cfg, fmt, node)
    case Denied(prefix, path, _) => prefix + DeniedTag + path
  }

  /** `f` applied to each element of `s`, in order. */
  function Map<A, B>(f: A -> B, s: seq<A>): (r: seq<B>)
    ensures |r| == |s|
    ensures forall k :: 0 <= k < |s| ==> r[k] == f(s[k])
  {
    if s == [] then [] else [f(s[0])] + Map(f, s[1..])
  }

  lemma MapAppend<A, B>(f: A -> B, a: seq<A>, b: seq<A>)
    ensures Map(f, a + b) == Map(f, a) + Map(f, b)
  {
  }

  /** The lines of a sequence of rows, one each, in order. */
  function Texts(cfg: Config, fmt: real -> string, rows: seq<Row>): seq<string> {
    Map(row => Text(cfg, fmt, row), rows)
  }

  lemma TextsAppend(cfg: Config, fmt: real -> string, a: seq<Row>, b: seq<Row>)
    ensures Texts(cfg, fmt, a + b) == Texts(cfg, fmt, a) + Texts(cfg, fmt, b)
  {
    MapAppend(row => Text(cfg, fmt, row), a, b);
  }

  /** An entry name with no blank at either end is shown as it is without
      icons, and after its icon and one blank with icons: the `strip` never
      leaves a stray blank and never eats into the name. */
  lemma DisplayNameShape(cfg: Config, e: Node)
    requires e.name != [] && !IsSpace(e.name[0]) && !IsSpace(e.name[|e.name| - 1])
    ensures !cfg.emoji ==> DisplayName(cfg, e) == e.name
    ensures cfg.emoji ==> DisplayName(cfg, e) == Icons.Icon(e.name, e.Dir?, true) + " " + e.name
  {
    Icons.IconShownIffEnabled(e.name, e.Dir?, cfg.emoji);
    StripIconAndName(Icons.Icon(e.name, e.Dir?, cfg.emoji), e.name);
  }

  /** With none of the four detail flags and no `--all-details`, the label is
      the display name alone: no parenthesised suffix. */
  lemma LabelWithoutDetails(cfg: Config, fmt: real -> string, e: Node)
    requires !cfg.creationDate && !cfg.updatedDate && !cfg.accessedTime
    requires !cfg.permissions && !cfg.allDetails
    ensures Label(cfg, fmt, e) == DisplayName(cfg, e)
  {
  }

  /** With `--all-details` the label carries all four details, in the fixed
      order created, modified, accessed, permissions. */
  lemma LabelAllDetails(cfg: Config, fmt: real -> string, e: Node)
    requires cfg.allDetails
    ensures MetaFields(cfg, fmt, e.stat, Permissions.Perms(e.stat.mode))
      == [CreatedTag + fmt(e.stat.ctime), ModifiedTag + fmt(e.stat.mtime),
          AccessedTag + fmt(e.stat.atime), PermsTag + Permissions.Perms(e.stat.mode)]
    ensures Label(cfg, fmt, e) == DisplayName(cfg, e) + " ("
      + JoinWith(" | ", MetaFields(cfg, fmt, e.stat, Permissions.Perms(e.stat.mode))) + ")"
  {
  }

  /** The details list has one field per enabled detail, so the label ends
      with ")" exactly when some detail is enabled (for a name that does not
      itself end with ")"). */
  lemma LabelHasDetailsIffFlag(cfg: Config, fmt: real -> string, e: Node)
    requires DisplayName(cfg, e) == [] || DisplayName(cfg, e)[|DisplayName(cfg, e)| - 1] != ')'
    ensures |MetaFields(cfg, fmt, e.stat, Permissions.Perms(e.stat.mode))|
      == (if ShowCreated(cfg) then 1 else 0) + (if ShowModified(cfg) then 1 else 0)
       + (if ShowAccessed(cfg) then 1 else 0) + (if ShowPerms(cfg) then 1 else 0)
    ensures EndsWith(Label(cfg, fmt, e), ")")
      <==> ShowCreated(cfg) || ShowModified(cfg) || ShowAccessed(cfg) || ShowPerms(cfg)
  {
    var text := Label(cfg, fmt, e);
    var name := DisplayName(cfg, e);
    if !(ShowCreated(cfg) || ShowModified(cfg) || ShowAccessed(cfg) || ShowPerms(cfg)) {
      assert text == name;
    } else {
      assert text[|text| - 1] == ')';
    }
  }
}

=== FILE: scenario.dfy ===
/** A worked listing: `-t .py` on a flat directory holding `a.py`, `b.txt`
    and an empty directory `c`. */
module Scenario {
  import opened Strings
  import opened Tree
  import opened Render
  import opened Walk
  import Icons

  const PyOnly: Config := Config([], [], None, [".py"], false, false, false, false, false, false, false, false)

  const St: Stat := Stat(0.0, 0.0, 0.0, 420)

  const Project: Node := Dir("proj", St, true, [File("a.py", St), File("b.txt", St), Dir("c", St, true, [])])

  const C: Node := Dir("c", St, true, [])
  const A: Node := File("a.py", St)
  const B: Node := File("b.txt", St)

  lemma ScenarioKeys()
    ensures KeyLe(A, B) && !KeyLe(A, C) && !KeyLe(B, C)
  {
    assert Lower("a.py")[0] == 'a' && Lower("b.txt")[0] == 'b';
  }

  /** Directories first, then files by lower-cased name. */
  lemma ScenarioSort()
    ensures SortEntries(Project.children) == [C, A, B]
  {
    ScenarioKeys();
    assert SortEntries([C]) == [C] by {
      assert [C][1..] == [];
    }
    assert SortEntries([B, C]) == [C, B] by {
      assert [B, C][1..] == [C];
      assert SortEntries([B, C]) == Insert(B, [C]);
      assert Insert(B, [C]) == [C] + Insert(B, []);
    }
    assert Insert(A, [C, B]) == [C, A, B] by {
      assert Insert(A, [C, B]) == [C] + Insert(A, [B]) by {
        assert [C, B][1..] == [B];
      }
    }
    assert Project.children == [A, B, C] && [A, B, C][1..] == [B, C];
  }

  /** Only `a.py` ends with ".py"; the directory `c` is filtered too. */
  lemma ScenarioFilters()
    ensures !Passes(PyOnly, C, Join("/proj", "c"))
    ensures Passes(PyOnly, A, Join("/proj", "a.py"))
    ensures !Passes(PyOnly, B, Join("/proj", "b.txt"))
  {
    assert A.name[0] == 'a' && "."[0] == '.';
    assert A.name[|A.name| - 3..] == ".py" && ".py" in PyOnly.types;
    assert "b.txt"[2..] != ".py";
    assert "c" != ".py";
  }

  /** Without icons or details the label is the bare name. */
  lemma ScenarioLabel(fmt: real -> string)
    ensures Label(PyOnly, fmt, A) == "a.py"
  {
    assert Icons.Icon("a.py", false, false) == "";
    assert Icons.Icon("a.py", false, false) + " " + "a.py" == " " + "a.py";
    StripAlreadyTrimmed("a.py");
  }

  lemma ScenarioTail()
    ensures Entries(PyOnly, Project, [C, A, B], 1, "/proj", 0, "") == [Entry(Tee, A, Join("/proj", "a.py"), 0)]
  {
    var entries := [C, A, B];
    ScenarioFilters();
    assert forall e :: e in entries ==> e in Project.children;
    assert Entries(PyOnly, Project, entries, 2, "/proj", 0, "") == [] by {
      assert entries[2] == B;
    }
    assert entries[1] == A && Indent(PyOnly, 1, 2, 0, "") == Tee;
    assert [Entry(Tee, A, Join("/proj", "a.py"), 0)] + [] + [] == [Entry(Tee, A, Join("/proj", "a.py"), 0)];
  }

  /** The directory sorts first, and the suffix filter drops it as well as
      `b.txt`. Since `a.py` is not the last of the three sorted entries, its
      row gets "├── " although it is the only row shown. */
  lemma ScenarioRows()
    ensures Listing(PyOnly, Project, "/proj", 0, "") == [Entry(Tee, A, Join("/proj", "a.py"), 0)]
  {
    var entries := SortEntries(Project.children);
    ScenarioSort();
    SortMembers(Project.children);
    assert Listing(PyOnly, Project, "/proj", 0, "") == Entries(PyOnly, Project, entries, 0, "/proj", 0, "");
    assert Entries(PyOnly, Project, entries, 0, "/proj", 0, "") == Entries(PyOnly, Project, entries, 1, "/proj", 0, "") by {
      ScenarioFilters();
      assert entries[0] == C;
    }
    ScenarioTail();
  }

  /** The whole output of the scenario is one line. */
  lemma TypesFilterScenario(fmt: real -> string)
    ensures Texts(PyOnly, fmt, Listing(PyOnly, Project, "/proj", 0, "")) == [Tee + "a.py"]
  {
    ScenarioRows();
    ScenarioLabel(fmt);
    var row := Entry(Tee, A, Join("/proj", "a.py"), 0);
    assert Text(PyOnly, fmt, row) == Tee + "a.py";
  }
}

=== FILE: strings.dfy ===
/** Text helpers standing for the Python string operations that ls.py uses:
    `str.lower`, `<` on strings, `startswith`, `endswith`, `in` (substring),
    `*` (repetition), `str.join`, `str.strip` and `str.split(".")[-1]`. */
module Strings {

  /** ASCII lower-casing, one character at a time (Python's `str.lower`
      restricted to ASCII). */
  function LowerChar(c: char): char {
    if 'A' <= c <= 'Z' then (c as int - 'A' as int + 'a' as int) as char else c
  }

  function Lower(s: string): string {
    seq(|s|, i requires 0 <= i < |s| => LowerChar(s[i]))
  }

  /** Lower-casing keeps the length, maps each ASCII capital to its small
      letter, leaves every other character as it is, and so leaves no ASCII
      capital behind. */
  lemma LowerAscii(s: string)
    ensures |Lower(s)| == |s|
    ensures forall i :: 0 <= i < |s| && 'A' <= s[i] <= 'Z' ==> Lower(s)[i] as int == s[i] as int + 32
    ensures forall i :: 0 <= i < |s| && !('A' <= s[i] <= 'Z') ==> Lower(s)[i] == s[i]
    ensures forall i :: 0 <= i < |s| ==> !('A' <= Lower(s)[i] <= 'Z')
  {
  }

  /** Python's `a <= b` on strings: lexicographic by code point, a proper
      prefix being smaller. */
  predicate StrLe(a: string, b: string) {
    a == [] || (b != [] && (a[0] < b[0] || (a[0] == b[0] && StrLe(a[1..], b[1..]))))
  }

  lemma {:induction false} StrLeTotal(a: string, b: string)
    ensures StrLe(a, b) || StrLe(b, a)
  {
    if a != [] && b != [] && a[0] == b[0] {
      StrLeTotal(a[1..], b[1..]);
    }
  }

  lemma {:induction false} StrLeTrans(a: string, b: string, c: string)
    requires StrLe(a, b) && StrLe(b, c)
    ensures StrLe(a, c)
  {
    if a != [] && b != [] && c != [] && a[0] == b[0] && b[0] == c[0] {
      StrLeTrans(a[1..], b[1..], c[1..]);
    }
  }

  /** Concatenation of sequences regroups freely. */
  lemma Associative<T>(a: seq<T>, b: seq<T>, c: seq<T>)
    ensures a + b + c == a + (b + c)
  {
  }

  predicate StartsWith(s: string, p: string) {
    |p| <= |s| && s[..|p|] == p
  }

  predicate EndsWith(s: string, p: string) {
    |p| <= |s| && s[|s| - |p|..] == p
  }

  /** Python's `p in s`: `p` occurs somewhere in `s` (the empty string
      occurs everywhere). */
  predicate Contains(s: string, p: string) {
    StartsWith(s, p) || (s != [] && Contains(s[1..], p))
  }

  /** `p` occurs in `s` starting at index `i`. */
  predicate OccursAt(s: string, p: string, i: int) {
    0 <= i <= |s| - |p| && s[i..i + |p|] == p
  }

  /** The recursive `Contains` means exactly "occurs at some index". */
  lemma {:induction false} ContainsAt(s: string, p: string)
    ensures Contains(s, p) <==> exists i :: OccursAt(s, p, i)
  {
    if StartsWith(s, p) {
      assert OccursAt(s, p, 0);
    } else if s != [] {
      ContainsAt(s[1..], p);
      if Contains(s[1..], p) {
        var i :| OccursAt(s[1..], p, i);
        assert s[i + 1..i + 1 + |p|] == s[1..][i..i + |p|];
        assert OccursAt(s, p, i + 1);
      }
      if i :| OccursAt(s, p, i) {
        assert i != 0;
        assert s[1..][i - 1..i - 1 + |p|] == s[i..i + |p|];
        assert OccursAt(s[1..], p, i - 1);
      }
    }
  }

  /** Python's `s * n`. */
  function Repeat(s: string, n: nat): string
  {
    if n == 0 then [] else s + Repeat(s, n - 1)
  }

  /** Python's `sep.join(parts)`. */
  function JoinWith(sep: string, parts: seq<string>): string {
    if parts == [] then []
    else if |parts| == 1 then parts[0]
    else parts[0] + sep + JoinWith(sep, parts[1..])
  }

  /** The characters Python's `str.isspace` accepts, i.e. what `str.strip()`
      with no argument removes. */
  predicate IsSpace(c: char) {
    c == ' ' || ('\t' <= c <= '\r') || ('\U{1C}' <= c <= '\U{1F}')
    || c == '\U{85}' || c == '\U{A0}' || c == '\U{1680}'
    || ('\U{2000}' <= c <= '\U{200A}') || c == '\U{2028}' || c == '\U{2029}'
    || c == '\U{202F}' || c == '\U{205F}' || c == '\U{3000}'
  }

  /** Drops leading whitespace: what is dropped is whitespace, and what is
      left is a suffix of `s` that does not start with whitespace. */
  function TrimStart(s: string): (r: string)
    ensures |r| <= |s| && r == s[|s| - |r|..]
    ensures forall k :: 0 <= k < |s| - |r| ==> IsSpace(s[k])
    ensures r != [] ==> !IsSpace(r[0])
  {
    if s != [] && IsSpace(s[0]) then TrimStart(s[1..]) else s
  }

  /** Drops trailing whitespace: what is dropped is whitespace, and what is
      left is a prefix of `s` that does not end with whitespace. */
  function TrimEnd(s: string): (r: string)
    ensures |r| <= |s| && r == s[..|r|]
    ensures forall k :: |r| <= k < |s| ==> IsSpace(s[k])
    ensures r != [] ==> !IsSpace(r[|r| - 1])
  {
    if s != [] && IsSpace(s[|s| - 1]) then TrimEnd(s[..|s| - 1]) else s
  }

  /** Python's `s.strip()`: the slice `s[i..j]` that remains once all
      whitespace at both ends is removed. */
  function Strip(s: string): (r: string)
    ensures exists i, j ::
      (0 <= i <= j <= |s| && r == s[i..j]
       && (forall k :: 0 <= k < i ==> IsSpace(s[k]))
       && (forall k :: j <= k < |s| ==> IsSpace(s[k])))
    ensures r != [] ==> !IsSpace(r[0]) && !IsSpace(r[|r| - 1])
  {
    var t := TrimStart(s);
    var r := TrimEnd(t);
    assert r == s[|s| - |t|..|s| - |t| + |r|];
    r
  }

  /** Stripping a string that already has no whitespace at either end
      changes nothing; one blank in front of it is removed. */
  lemma StripAlreadyTrimmed(s: string)
    requires s != [] ==> !IsSpace(s[0]) && !IsSpace(s[|s| - 1])
    ensures Strip(s) == s
    ensures Strip(" " + s) == s
  {
    assert (" " + s)[1..] == s;
  }

  /** `(icon + " " + name).strip()` for a name with no blank at either end:
      the name alone when there is no icon, the whole text otherwise. */
  lemma StripIconAndName(icon: string, name: string)
    requires icon == [] || !IsSpace(icon[0])
    requires name != [] && !IsSpace(name[0]) && !IsSpace(name[|name| - 1])
    ensures Strip(icon + " " + name) == if icon == [] then name else icon + " " + name
  {
    var s := icon + " " + name;
    if icon == [] {
      assert s == " " + name;
      StripAlreadyTrimmed(name);
    } else {
      assert s[|s| - 1] == name[|name| - 1];
      StripAlreadyTrimmed(s);
    }
  }

  /** Python's `s.split(".")[-1]`: the text after the last dot, or all of
      `s` when it has no dot. */
  function LastSegment(s: string): (r: string)
    ensures '.' !in r
    ensures |r| <= |s| && r == s[|s| - |r|..]
    ensures |r| == |s| || s[|s| - |r| - 1] == '.'
  {
    if s == [] then []
    else if s[|s| - 1] == '.' then []
    else LastSegment(s[..|s| - 1]) + [s[|s| - 1]]
  }
}

=== FILE: tree.dfy ===
/** The directory tree that `generate_structure` (ls.py:44-122) walks, the
    parsed command-line options it consults, the four per-entry filters
    (ls.py:58-74) and the directories-first sort (ls.py:52). */
module Tree {
  import opened Strings

  datatype Option<T> = None | Some(value: T)

  /** The `stat` fields the listing shows: the three timestamps and the
      permission bits. */
  datatype Stat = Stat(ctime: real, mtime: real, atime: real, mode: nat)

  /** A directory entry. `children` is a directory's listing in the order
      the operating system returns it; `readable` is false when listing it
      raises PermissionError. */
  datatype Node =
    | File(name: string, stat: Stat)
    | Dir(name: string, stat: Stat, readable: bool, children: seq<Node>)

  /** The parsed arguments of ls.py:138-155. `depth` is `None` when `-d` is
      not given. `types` is empty both when `-t` is absent and when it is
      given with no suffix, since the source only asks whether it is truthy. */
  datatype Config = Config(
    excludes: seq<string>,
    includes: seq<string>,
    depth: Option<int>,
    types: seq<string>,
    hidden: bool,
    clean: bool,
    emoji: bool,
    creationDate: bool,
    updatedDate: bool,
    accessedTime: bool,
    permissions: bool,
    allDetails: bool)

  /** The resolved path of entry `name` inside the directory at `dir`. */
  function Join(dir: string, name: string): string {
    if dir != [] && dir[|dir| - 1] == '/' then dir + name else dir + "/" + name
  }

  /** `args.depth and depth > args.depth`: a limit of 0 (falsy) and no limit
      both mean unlimited. */
  predicate DepthCut(cfg: Config, depth: nat) {
    cfg.depth.Some? && cfg.depth.value != 0 && depth > cfg.depth.value
  }

  /** ls.py:59: a dot-name is kept only with `--hidden`. */
  predicate KeptHidden(cfg: Config, e: Node) {
    cfg.hidden || !StartsWith(e.name, ".")
  }

  /** ls.py:63: a directory whose name is listed in `--exclude` is dropped. */
  predicate KeptExclude(cfg: Config, e: Node) {
    !(e.Dir? && e.name in cfg.excludes)
  }

  /** ls.py:67-70: with `--include`, an entry is kept when some include term
      is a substring of its resolved path, or its name equals a term. */
  predicate KeptInclude(cfg: Config, e: Node, path: string) {
    |cfg.includes| == 0
    || (exists inc :: inc in cfg.includes && Contains(path, inc))
    || e.name in cfg.includes
  }

  /** ls.py:73: with `--types`, an entry (file or directory) is kept only
      when its name ends with one of the suffixes. */
  predicate KeptType(cfg: Config, e: Node) {
    |cfg.types| == 0 || exists t :: t in cfg.types && EndsWith(e.name, t)
  }

  /** The entry survives all four `continue`s of the loop. */
  predicate Passes(cfg: Config, e: Node, path: string) {
    KeptHidden(cfg, e) && KeptExclude(cfg, e) && KeptInclude(cfg, e, path) && KeptType(cfg, e)
  }

  /** The sort key `(e.is_file(), e.name.lower())` compared as Python compares
      tuples: directories (False) first, then the lower-cased names. */
  predicate KeyLe(a: Node, b: Node) {
    if a.File? != b.File? then b.File? else StrLe(Lower(a.name), Lower(b.name))
  }

  lemma KeyLeTotal(a: Node, b: Node)
    ensures KeyLe(a, b) || KeyLe(b, a)
  {
    StrLeTotal(Lower(a.name), Lower(b.name));
  }

  lemma KeyLeTrans(a: Node, b: Node, c: Node)
    requires KeyLe(a, b) && KeyLe(b, c)
    ensures KeyLe(a, c)
  {
    if a.File? == b.File? == c.File? {
      StrLeTrans(Lower(a.name), Lower(b.name), Lower(c.name));
    }
  }

  predicate Sorted(s: seq<Node>) {
    forall i, j :: 0 <= i < j < |s| ==> KeyLe(s[i], s[j])
  }

  /** Puts `x` before the first element whose key is not smaller, so that of
      two entries with equal keys the earlier one stays first. */
  function Insert(x: Node, s: seq<Node>): seq<Node> {
    if s == [] then [x]
    else if KeyLe(x, s[0]) then [x] + s
    else [s[0]] + Insert(x, s[1..])
  }

  /** Inserting an entry no smaller than `y` among entries no smaller than
      `y` keeps them all no smaller than `y`. */
  lemma {:induction false} InsertLowerBound(y: Node, x: Node, s: seq<Node>)
    requires KeyLe(y, x)
    requires forall j :: 0 <= j < |s| ==> KeyLe(y, s[j])
    ensures forall j :: 0 <= j < |Insert(x, s)| ==> KeyLe(y, Insert(x, s)[j])
  {
    if s != [] && !KeyLe(x, s[0]) {
      InsertLowerBound(y, x, s[1..]);
      var t := Insert(x, s[1..]);
      assert Insert(x, s) == [s[0]] + t;
      forall j | 0 < j < |Insert(x, s)| ensures KeyLe(y, Insert(x, s)[j]) {
        assert Insert(x, s)[j] == t[j - 1];
      }
    }
  }

  lemma ConsSorted(y: Node, t: seq<Node>)
    requires Sorted(t)
    requires forall j :: 0 <= j < |t| ==> KeyLe(y, t[j])
    ensures Sorted([y] + t)
  {
    var r := [y] + t;
    forall i, j | 0 <= i < j < |r| ensures KeyLe(r[i], r[j]) {
      assert r[j] == t[j - 1];
      if i > 0 {
        assert r[i] == t[i - 1];
      }
    }
  }

  /** Inserting adds exactly the one entry. */
  lemma {:induction false} InsertAdds(x: Node, s: seq<Node>)
    ensures multiset(Insert(x, s)) == multiset(s) + multiset{x}
  {
    if s != [] && !KeyLe(x, s[0]) {
      InsertAdds(x, s[1..]);
      assert s == [s[0]] + s[1..];
    }
  }

  lemma {:induction false} InsertSorted(x: Node, s: seq<Node>)
    requires Sorted(s)
    ensures Sorted(Insert(x, s))
    ensures multiset(Insert(x, s)) == multiset(s) + multiset{x}
  {
    InsertAdds(x, s);
    if s == [] {
    } else if KeyLe(x, s[0]) {
      assert Sorted(Insert(x, s)) by {
        forall j | 0 <= j < |s| ensures KeyLe(x, s[j]) {
          if j > 0 {
            KeyLeTrans(x, s[0], s[j]);
          }
        }
        ConsSorted(x, s);
        assert Insert(x, s) == [x] + s;
      }
    } else {
      assert Sorted(Insert(x, s)) by {
        var t := Insert(x, s[1..]);
        InsertSorted(x, s[1..]);
        KeyLeTotal(x, s[0]);
        assert forall j :: 0 <= j < |s[1..]| ==> KeyLe(s[0], s[1..][j]);
        InsertLowerBound(s[0], x, s[1..]);
        ConsSorted(s[0], t);
        assert Insert(x, s) == [s[0]] + t;
      }
    }
  }

  /** Python's stable `sorted(..., key=lambda e: (e.is_file(), e.name.lower()))`:
      the result holds the same entries and is in key order. */
  function SortEntries(s: seq<Node>): (r: seq<Node>)
    ensures Sorted(r)
    ensures multiset(r) == multiset(s)
  {
    if s == [] then []
    else
      var rest := SortEntries(s[1..]);
      InsertSorted(s[0], rest);
      assert s == [s[0]] + s[1..];
      Insert(s[0], rest)
  }

  /** In a sorted listing every directory comes before every file. */
  lemma DirectoriesFirst(s: seq<Node>, i: int, j: int)
    requires Sorted(s) && 0 <= i < |s| && 0 <= j < |s|
    requires s[i].Dir? && s[j].File?
    ensures i < j
  {
  }
}

=== FILE: walk.dfy ===
/** `generate_structure` (ls.py:44-122): the recursive, pre-order,
    depth-first listing of a directory. `Listing` and `Entries` say what it
    produces, as rows; `GenerateStructure` is the loop of the source, proved
    to produce the text of those rows. */
module Walk {
  import opened Strings
  import opened Tree
  import opened Render
  import Icons
  import Permissions

  /** Every member of the sorted listing is a child of the directory. */
  lemma SortMembers(s: seq<Node>)
    ensures forall e :: e in SortEntries(s) ==> e in s
  {
    var r := SortEntries(s);
    forall e | e in r ensures e in s {
      assert e in multiset(r);
    }
  }

  /** The rows of the directory `dir`, whose resolved path is `path`, when it
      is listed at `depth` with `prefix` (ls.py:45-53, 119-122): nothing
      beyond the depth limit, one access-denied row for an unreadable
      directory, otherwise the rows of its sorted entries. */
  function Listing(cfg: Config, dir: Node, path: string, depth: nat, prefix: string): seq<Row>
    requires dir.Dir?
    decreases dir, 1
  {
    if DepthCut(cfg, depth) then []
    else if !dir.readable then [Denied(prefix, path, depth)]
    else
      SortMembers(dir.children);
      Entries(cfg, dir, SortEntries(dir.children), 0, path, depth, prefix)
  }

  /** The rows of the sorted entries from index `i` on (ls.py:55-117). An
      entry that fails a filter contributes nothing, not even for its
      subtree; one that passes contributes its own row, then, for a
      directory, the rows of its listing one level deeper. The connector
      compares `i` with the last index of ALL sorted entries. */
  function Entries(cfg: Config, dir: Node, entries: seq<Node>, i: nat, path: string, depth: nat, prefix: string): seq<Row>
    requires dir.Dir? && i <= |entries|
    requires forall e :: e in entries ==> e in dir.children
    decreases dir, 0, |entries| - i
  {
    if i == |entries| then []
    else
      var e := entries[i];
      assert e in entries;
      var rest := Entries(cfg, dir, entries, i + 1, path, depth, prefix);
      var entryPath := Join(path, e.name);
      if !Passes(cfg, e, entryPath) then rest
      else
        var lastIndex := |entries| - 1;
        [Entry(Indent(cfg, i, lastIndex, depth, prefix), e, entryPath, depth)]
        + (if e.Dir? then Listing(cfg, e, entryPath, depth + 1, ChildPrefix(cfg, i, lastIndex, depth, prefix)) else [])
        + rest
  }

  /** One step of the loop over the sorted entries, in terms of the lines
      it appends. */
  lemma EntriesStep(cfg: Config, fmt: real -> string, dir: Node, entries: seq<Node>, i: nat, path: string, depth: nat, prefix: string)
    requires dir.Dir? && i < |entries|
    requires forall e :: e in entries ==> e in dir.children
    ensures var e := entries[i];
      var entryPath := Join(path, e.name);
      var rest := Texts(cfg, fmt, Entries(cfg, dir, entries, i + 1, path, depth, prefix));
      var lastIndex := |entries| - 1;
      Texts(cfg, fmt, Entries(cfg, dir, entries, i, path, depth, prefix))
      == if !Passes(cfg, e, entryPath) then rest
         else
           [Text(cfg, fmt, Entry(Indent(cfg, i, lastIndex, depth, prefix), e, entryPath, depth))]
           + (if e.Dir? then Texts(cfg, fmt, Listing(cfg, e, entryPath, depth + 1, ChildPrefix(cfg, i, lastIndex, depth, prefix))) else [])
           + rest
  {
    var e := entries[i];
    assert e in entries;
    var entryPath := Join(path, e.name);
    var rest := Entries(cfg, dir, entries, i + 1, path, depth, prefix);
    var lastIndex := |entries| - 1;
    if Passes(cfg, e, entryPath) {
      var own := [Entry(Indent(cfg, i, lastIndex, depth, prefix), e, entryPath, depth)];
      var sub := if e.Dir? then Listing(cfg, e, entryPath, depth + 1, ChildPrefix(cfg, i, lastIndex, depth, prefix)) else [];
      assert Entries(cfg, dir, entries, i, path, depth, prefix) == own + sub + rest;
      TextsAppend(cfg, fmt, own + sub, rest);
      TextsAppend(cfg, fmt, own, sub);
      assert Texts(cfg, fmt, own) == [Text(cfg, fmt, own[0])];
    }
  }

  /** The details list the loop body builds (ls.py:91-100), one append per
      enabled detail, with `permissions` the string get_permissions gave. */
  method CollectMetadata(cfg: Config, fmt: real -> string, stat: Stat, permissions: string)
    returns (metadata: seq<string>)
    ensures metadata == MetaFields(cfg, fmt, stat, permissions)
  {
    metadata := [];
    if ShowCreated(cfg) {
      metadata := metadata + [CreatedTag + fmt(stat.ctime)];
    }
    if ShowModified(cfg) {
      metadata := metadata + [ModifiedTag + fmt(stat.mtime)];
    }
    if ShowAccessed(cfg) {
      metadata := metadata + [AccessedTag + fmt(stat.atime)];
    }
    ghost var firstThree := metadata;
    if ShowPerms(cfg) {
      metadata := metadata + [PermsTag + permissions];
    }
    assert metadata == firstThree + (if ShowPerms(cfg) then [PermsTag + permissions] else []);
  }

  /** The label the loop body builds (ls.py:76-103), with the permission
      string obtained from get_permissions. */
  method FormatEntry(cfg: Config, fmt: real -> string, entry: Node) returns (formattedName: string)
    ensures formattedName == Label(cfg, fmt, entry)
  {
    var emoji := Icons.Icon(entry.name, entry.Dir?, cfg.emoji);
    var permissions := "";
    if ShowPerms(cfg) {
      permissions := Permissions.GetPermissions(entry.stat.mode);
    }
    formattedName := Strip(emoji + " " + entry.name);
    var metadata := CollectMetadata(cfg, fmt, entry.stat, permissions);
    assert metadata == MetaFields(cfg, fmt, entry.stat, Permissions.Perms(entry.stat.mode));
    if metadata != [] {
      formattedName := formattedName + " (" + JoinWith(" | ", metadata) + ")";
    }
  }

  /** generate_structure itself: the same checks, and the same loop over
      the sorted entries with a `continue` for each filter. */
  method GenerateStructure(cfg: Config, fmt: real -> string, dir: Node, path: string, depth: nat, prefix: string)
    returns (result: seq<string>)
    requires dir.Dir?
    ensures result == Texts(cfg, fmt, Listing(cfg, dir, path, depth, prefix))
    decreases dir, 1
  {
    if cfg.depth.Some? && cfg.depth.value != 0 && depth > cfg.depth.value {
      return [];
    }
    result := [];
    if !dir.readable {
      result := result + [prefix + DeniedTag + path];
      return;
    }
    var entries := SortEntries(dir.children);
    SortMembers(dir.children);
    ghost var all := Entries(cfg, dir, entries, 0, path, depth, prefix);
    for i := 0 to |entries|
      invariant result + Texts(cfg, fmt, Entries(cfg, dir, entries, i, path, depth, prefix)) == Texts(cfg, fmt, all)
    {
      var entry := entries[i];
      assert entry in entries;
      var entryPath := Join(path, entry.name);
      EntriesStep(cfg, fmt, dir, entries, i, path, depth, prefix);
      ghost var before := result;
      ghost var rest := Texts(cfg, fmt, Entries(cfg, dir, entries, i + 1, path, depth, prefix));
      if !cfg.hidden && StartsWith(entry.name, ".") {
        assert !KeptHidden(cfg, entry);
        continue;
      }
      if entry.Dir? && entry.name in cfg.excludes {
        assert !KeptExclude(cfg, entry);
        continue;
      }
      if |cfg.includes| > 0 {
        var isInsideIncluded := exists inc :: inc in cfg.includes && Contains(entryPath, inc);
        if !isInsideIncluded && entry.name !in cfg.includes {
          assert !KeptInclude(cfg, entry, entryPath);
          continue;
        }
      }
      if |cfg.types| > 0 && !(exists t :: t in cfg.types && EndsWith(entry.name, t)) {
        assert !KeptType(cfg, entry);
        continue;
      }
      var lines := VisitEntry(cfg, fmt, dir, entries, i, path, depth, prefix);
      result := result + lines;
      Associative(before, lines, rest);
    }
  }

  /** The part of the loop body after the filters (ls.py:76-117) for the
      `i`-th sorted entry, which passed them: its own line, then, for a
      directory, the lines of the recursive call one level deeper. */
  method VisitEntry(cfg: Config, fmt: real -> string, dir: Node, entries: seq<Node>, i: nat, path: string, depth: nat, prefix: string)
    returns (lines: seq<string>)
    requires dir.Dir? && i < |entries|
    requires forall e :: e in entries ==> e in dir.children
    requires Passes(cfg, entries[i], Join(path, entries[i].name))
    ensures lines + Texts(cfg, fmt, Entries(cfg, dir, entries, i + 1, path, depth, prefix))
      == Texts(cfg, fmt, Entries(cfg, dir, entries, i, path, depth, prefix))
    decreases dir, 0
  {
    var entry := entries[i];
    assert entry in entries;
    var entryPath := Join(path, entry.name);
    EntriesStep(cfg, fmt, dir, entries, i, path, depth, prefix);
    ghost var rest := Texts(cfg, fmt, Entries(cfg, dir, entries, i + 1, path, depth, prefix));
    var lastIndex := |entries| - 1;
    var formattedName := FormatEntry(cfg, fmt, entry);
    var indent, newPrefix;
    if cfg.clean {
      indent := Repeat(Blank, depth);
      newPrefix := Repeat(Blank, depth + 1);
    } else {
      indent := if i < lastIndex then prefix + Tee else prefix + Elbow;
      newPrefix := if i < lastIndex then prefix + Bar else prefix + Blank;
    }
    assert indent == Indent(cfg, i, lastIndex, depth, prefix);
    assert newPrefix == ChildPrefix(cfg, i, lastIndex, depth, prefix);
    var line := indent + formattedName;
    assert line == Text(cfg, fmt, Entry(Indent(cfg, i, lastIndex, depth, prefix), entry, entryPath, depth));
    lines := [line];
    if entry.Dir? {
      var sub := GenerateStructure(cfg, fmt, entry, entryPath, depth + 1, newPrefix);
      lines := lines + sub;
    }
  }

  /** The whole listing ls.py produces for the current folder `root` at the
      resolved path `rootPath` (ls.py:166). */
  method Structure(cfg: Config, fmt: real -> string, root: Node, rootPath: string) returns (lines: seq<string>)
    requires root.Dir?
    ensures lines == Texts(cfg, fmt, Listing(cfg, root, rootPath, 0, ""))
  {
    lines := GenerateStructure(cfg, fmt, root, rootPath, 0, "");
  }
}

=== FILE: walk_props.dfy ===
/** What the listing of generate_structure (ls.py:44-122) promises about its
    rows: filters and the depth limit always hold, indentation follows the
    nesting, the lines right under a directory are its visible children in
    sorted order, and the box connectors follow from the last index of the
    whole sorted listing. */
module WalkProps {
  import opened Strings
  import opened Tree
  import opened Render
  import opened Walk

  /** The text a row starts with: an entry's indentation, or the prefix of an
      access-denied line. */
  function Lead(r: Row): string {
    match r
    case Entry(indent, _, _, _) => indent
    case Denied(prefix, _, _) => prefix
  }

  /** What each row of a listing started at `depth` with `prefix` satisfies:
      it is no shallower and within the depth limit; an entry passed all four
      filters; in clean style an entry is indented by four blanks per level;
      in box style the row starts with `prefix`, grows by four characters per
      level, and an entry's indentation ends with a connector. */
  predicate WellFormed(cfg: Config, r: Row, depth: nat, prefix: string) {
    depth <= r.depth && !DepthCut(cfg, r.depth)
    && (r.Entry? ==> Passes(cfg, r.node, r.path))
    && (r.Entry? && cfg.clean ==> r.indent == Spaces(r.depth))
    && (!cfg.clean ==>
          StartsWith(Lead(r), prefix)
          && |Lead(r)| == |prefix| + 4 * (r.depth - depth) + (if r.Entry? then 4 else 0)
          && (r.Entry? ==> EndsWith(r.indent, Tee) || EndsWith(r.indent, Elbow)))
  }

  lemma StartsWithLonger(s: string, p: string, q: string)
    requires StartsWith(s, p + q)
    ensures StartsWith(s, p)
  {
    assert s[..|p|] == s[..|p + q|][..|p|];
  }

  lemma {:induction false} ListingWellFormed(cfg: Config, dir: Node, path: string, depth: nat, prefix: string)
    requires dir.Dir?
    ensures forall r :: r in Listing(cfg, dir, path, depth, prefix) ==> WellFormed(cfg, r, depth, prefix)
    decreases dir, 1
  {
    if !DepthCut(cfg, depth) && dir.readable {
      SortMembers(dir.children);
      EntriesWellFormed(cfg, dir, SortEntries(dir.children), 0, path, depth, prefix);
    }
  }

  lemma {:induction false} EntriesWellFormed(cfg: Config, dir: Node, entries: seq<Node>, i: nat, path: string, depth: nat, prefix: string)
    requires dir.Dir? && i <= |entries|
    requires forall e :: e in entries ==> e in dir.children
    requires !DepthCut(cfg, depth)
    ensures forall r :: r in Entries(cfg, dir, entries, i, path, depth, prefix) ==> WellFormed(cfg, r, depth, prefix)
    decreases dir, 0, |entries| - i
  {
    if i < |entries| {
      var e := entries[i];
      assert e in entries;
      var entryPath := Join(path, e.name);
      var lastIndex := |entries| - 1;
      EntriesWellFormed(cfg, dir, entries, i + 1, path, depth, prefix);
      if Passes(cfg, e, entryPath) {
        var own := Entry(Indent(cfg, i, lastIndex, depth, prefix), e, entryPath, depth);
        assert WellFormed(cfg, own, depth, prefix) by {
          if !cfg.clean {
            var connector := if i < lastIndex then Tee else Elbow;
            assert own.indent == prefix + connector;
            assert own.indent[..|prefix|] == prefix;
            assert own.indent[|own.indent| - 4..] == connector;
          }
        }
        if e.Dir? {
          var childPrefix := ChildPrefix(cfg, i, lastIndex, depth, prefix);
          var sub := Listing(cfg, e, entryPath, depth + 1, childPrefix);
          ListingWellFormed(cfg, e, entryPath, depth + 1, childPrefix);
          forall r | r in sub ensures WellFormed(cfg, r, depth, prefix) {
            assert WellFormed(cfg, r, depth + 1, childPrefix);
            if !cfg.clean {
              var filler := if i < lastIndex then Bar else Blank;
              assert childPrefix == prefix + filler;
              StartsWithLonger(Lead(r), prefix, filler);
            }
          }
        }
      }
    }
  }

  /** In box style, a directory entry that passes the filters contributes
      its own row, then its subtree, then the later entries' rows; every row
      of the subtree starts with the prefix plus "│   " when the entry is not
      the last of ALL sorted entries, and plus four blanks when it is. So
      when the last sorted entry is filtered out, the subtree of the last
      shown directory still carries the "│" continuation. */
  lemma EntriesSubtree(cfg: Config, dir: Node, entries: seq<Node>, i: nat, path: string, depth: nat, prefix: string)
    requires dir.Dir? && i < |entries|
    requires forall e :: e in entries ==> e in dir.children
    requires !cfg.clean && entries[i].Dir? && Passes(cfg, entries[i], Join(path, entries[i].name))
    ensures var e := entries[i];
      var p := Join(path, e.name);
      var last := i == |entries| - 1;
      var cp := prefix + (if last then Blank else Bar);
      Entries(cfg, dir, entries, i, path, depth, prefix)
        == [Entry(prefix + (if last then Elbow else Tee), e, p, depth)]
           + Listing(cfg, e, p, depth + 1, cp)
           + Entries(cfg, dir, entries, i + 1, path, depth, prefix)
      && forall r :: r in Listing(cfg, e, p, depth + 1, cp) ==> StartsWith(Lead(r), cp)
  {
    var e := entries[i];
    assert e in entries;
    var p := Join(path, e.name);
    var cp := prefix + (if i == |entries| - 1 then Blank else Bar);
    assert ChildPrefix(cfg, i, |entries| - 1, depth, prefix) == cp;
    ListingWellFormed(cfg, e, p, depth + 1, cp);
  }

  /** Seen from the root: no dot-entry without `--hidden`, no directory named
      in `--exclude`, with `--include` only entries whose path contains a
      term or whose name is one, with `--types` only entries whose name ends
      with a suffix, and in clean style four blanks per level. */
  lemma FiltersHold(cfg: Config, root: Node, rootPath: string)
    requires root.Dir?
    ensures forall r :: r in Listing(cfg, root, rootPath, 0, "") && r.Entry? ==>
      (cfg.hidden || !StartsWith(r.node.name, "."))
      && !(r.node.Dir? && r.node.name in cfg.excludes)
      && (|cfg.includes| > 0 ==>
            (exists inc :: inc in cfg.includes && Contains(r.path, inc)) || r.node.name in cfg.includes)
      && (|cfg.types| > 0 ==> exists t :: t in cfg.types && EndsWith(r.node.name, t))
      && (cfg.clean ==> r.indent == Spaces(r.depth))
  {
    ListingWellFormed(cfg, root, rootPath, 0, "");
  }

  /** `-d N` with N > 0 shows no row of depth greater than N. The root's
      children have depth 0, so entries appear down to N + 1 levels below
      the root. A negative N shows nothing at all. */
  lemma DepthLimit(cfg: Config, root: Node, rootPath: string)
    requires root.Dir?
    ensures cfg.depth.Some? && cfg.depth.value > 0 ==>
      forall r :: r in Listing(cfg, root, rootPath, 0, "") ==> r.depth <= cfg.depth.value
    ensures cfg.depth.Some? && cfg.depth.value < 0 ==> Listing(cfg, root, rootPath, 0, "") == []
  {
    ListingWellFormed(cfg, root, rootPath, 0, "");
  }

  /** `-d 0` is falsy in Python, so it lists as deep as no `-d` at all. */
  lemma {:induction false} DepthZeroIsUnlimited(cfg: Config, dir: Node, path: string, depth: nat, prefix: string)
    requires dir.Dir? && cfg.depth == Some(0)
    ensures Listing(cfg, dir, path, depth, prefix) == Listing(cfg.(depth := None), dir, path, depth, prefix)
    decreases dir, 1
  {
    if dir.readable {
      SortMembers(dir.children);
      EntriesDepthZero(cfg, dir, SortEntries(dir.children), 0, path, depth, prefix);
    }
  }

  lemma {:induction false} EntriesDepthZero(cfg: Config, dir: Node, entries: seq<Node>, i: nat, path: string, depth: nat, prefix: string)
    requires dir.Dir? && i <= |entries| && cfg.depth == Some(0)
    requires forall e :: e in entries ==> e in dir.children
    ensures Entries(cfg, dir, entries, i, path, depth, prefix)
      == Entries(cfg.(depth := None), dir, entries, i, path, depth, prefix)
    decreases dir, 0, |entries| - i
  {
    if i < |entries| {
      var e := entries[i];
      assert e in entries;
      EntriesDepthZero(cfg, dir, entries, i + 1, path, depth, prefix);
      if e.Dir? {
        var lastIndex := |entries| - 1;
        DepthZeroIsUnlimited(cfg, e, Join(path, e.name), depth + 1, ChildPrefix(cfg, i, lastIndex, depth, prefix));
      }
    }
  }

  /** The entry rows at depth `d`, in order. */
  function LevelRows(rows: seq<Row>, d: nat): (r: seq<Row>)
    ensures forall k :: 0 <= k < |r| ==> r[k].Entry? && r[k].depth == d
  {
    if rows == [] then []
    else (if rows[0].Entry? && rows[0].depth == d then [rows[0]] else []) + LevelRows(rows[1..], d)
  }

  lemma {:induction false} LevelRowsAppend(a: seq<Row>, b: seq<Row>, d: nat)
    ensures LevelRows(a + b, d) == LevelRows(a, d) + LevelRows(b, d)
  {
    if a == [] {
      assert a + b == b;
    } else {
      var head := if a[0].Entry? && a[0].depth == d then [a[0]] else [];
      assert (a + b)[0] == a[0];
      assert (a + b)[1..] == a[1..] + b;
      LevelRowsAppend(a[1..], b, d);
      Associative(head, LevelRows(a[1..], d), LevelRows(b, d));
    }
  }

  lemma {:induction false} LevelRowsDeeper(rows: seq<Row>, d: nat)
    requires forall r :: r in rows ==> r.depth > d
    ensures LevelRows(rows, d) == []
  {
    if rows != [] {
      assert rows[0] in rows;
      LevelRowsDeeper(rows[1..], d);
    }
  }

  /** The nodes of the entry rows, in order. */
  function Nodes(rows: seq<Row>): seq<Node> {
    if rows == [] then []
    else (if rows[0].Entry? then [rows[0].node] else []) + Nodes(rows[1..])
  }

  lemma {:induction false} NodesAppend(a: seq<Row>, b: seq<Row>)
    ensures Nodes(a + b) == Nodes(a) + Nodes(b)
  {
    if a == [] {
      assert a + b == b;
    } else {
      var head := if a[0].Entry? then [a[0].node] else [];
      assert (a + b)[0] == a[0];
      assert (a + b)[1..] == a[1..] + b;
      NodesAppend(a[1..], b);
      Associative(head, Nodes(a[1..]), Nodes(b));
    }
  }

  /** The entries of `s` that pass the four filters, in order. */
  function Visible(cfg: Config, s: seq<Node>, path: string): seq<Node> {
    if s == [] then []
    else (if Passes(cfg, s[0], Join(path, s[0].name)) then [s[0]] else []) + Visible(cfg, s[1..], path)
  }

  /** An entry occurs among the visible ones as often as among all of them
      when it passes the filters, and never otherwise. */
  lemma {:induction false} VisibleCount(cfg: Config, s: seq<Node>, path: string, x: Node)
    ensures multiset(Visible(cfg, s, path))[x]
      == if Passes(cfg, x, Join(path, x.name)) then multiset(s)[x] else 0
  {
    if s != [] {
      VisibleCount(cfg, s[1..], path, x);
      assert s == [s[0]] + s[1..];
    }
  }

  lemma VisiblePermutation(cfg: Config, s: seq<Node>, t: seq<Node>, path: string)
    requires multiset(s) == multiset(t)
    ensures multiset(Visible(cfg, s, path)) == multiset(Visible(cfg, t, path))
  {
    forall x ensures multiset(Visible(cfg, s, path))[x] == multiset(Visible(cfg, t, path))[x] {
      VisibleCount(cfg, s, path, x);
      VisibleCount(cfg, t, path, x);
    }
  }

  lemma {:induction false} VisibleSorted(cfg: Config, s: seq<Node>, path: string)
    requires Sorted(s)
    ensures Sorted(Visible(cfg, s, path))
    ensures forall x :: x in Visible(cfg, s, path) ==> x in s
  {
    if s != [] {
      var rest := Visible(cfg, s[1..], path);
      VisibleSorted(cfg, s[1..], path);
      forall x | x in rest ensures KeyLe(s[0], x) {
        var k :| 0 <= k < |s[1..]| && s[1..][k] == x;
        assert s[k + 1] == x;
      }
    }
  }

  /** One entry's contribution to the current level: its own row when it
      passes the filters, since its subtree lies deeper. */
  lemma LevelStep(cfg: Config, dir: Node, entries: seq<Node>, i: nat, path: string, depth: nat, prefix: string)
    requires dir.Dir? && i < |entries|
    requires forall e :: e in entries ==> e in dir.children
    requires !DepthCut(cfg, depth)
    ensures var e := entries[i];
      var entryPath := Join(path, e.name);
      LevelRows(Entries(cfg, dir, entries, i, path, depth, prefix), depth)
      == (if Passes(cfg, e, entryPath) then [Entry(Indent(cfg, i, |entries| - 1, depth, prefix), e, entryPath, depth)] else [])
         + LevelRows(Entries(cfg, dir, entries, i + 1, path, depth, prefix), depth)
  {
    var e := entries[i];
    assert e in entries;
    var entryPath := Join(path, e.name);
    var lastIndex := |entries| - 1;
    var rest := Entries(cfg, dir, entries, i + 1, path, depth, prefix);
    if Passes(cfg, e, entryPath) {
      var own := [Entry(Indent(cfg, i, lastIndex, depth, prefix), e, entryPath, depth)];
      var sub := if e.Dir? then Listing(cfg, e, entryPath, depth + 1, ChildPrefix(cfg, i, lastIndex, depth, prefix)) else [];
      if e.Dir? {
        ListingWellFormed(cfg, e, entryPath, depth + 1, ChildPrefix(cfg, i, lastIndex, depth, prefix));
      }
      LevelRowsDeeper(sub, depth);
      assert Entries(cfg, dir, entries, i, path, depth, prefix) == own + sub + rest;
      LevelRowsAppend(own + sub, rest, depth);
      LevelRowsAppend(own, sub, depth);
      assert LevelRows(own, depth) == own;
      assert own + [] == own;
    } else {
      assert [] + LevelRows(rest, depth) == LevelRows(rest, depth);
    }
  }

  lemma {:induction false} EntriesLevel(cfg: Config, dir: Node, entries: seq<Node>, i: nat, path: string, depth: nat, prefix: string)
    requires dir.Dir? && i <= |entries|
    requires forall e :: e in entries ==> e in dir.children
    requires !DepthCut(cfg, depth)
    ensures Nodes(LevelRows(Entries(cfg, dir, entries, i, path, depth, prefix), depth)) == Visible(cfg, entries[i..], path)
    decreases |entries| - i
  {
    if i < |entries| {
      var e := entries[i];
      var entryPath := Join(path, e.name);
      var own := if Passes(cfg, e, entryPath) then [Entry(Indent(cfg, i, |entries| - 1, depth, prefix), e, entryPath, depth)] else [];
      var rest := LevelRows(Entries(cfg, dir, entries, i + 1, path, depth, prefix), depth);
      LevelStep(cfg, dir, entries, i, path, depth, prefix);
      EntriesLevel(cfg, dir, entries, i + 1, path, depth, prefix);
      NodesAppend(own, rest);
      assert Nodes(own) == if Passes(cfg, e, entryPath) then [e] else [];
      assert entries[i..][0] == e && entries[i..][1..] == entries[i + 1..];
    } else {
      assert entries[i..] == [];
    }
  }

  /** The lines directly under a listed directory are exactly its children
      that pass the filters, each once, in the order of the sort: the
      directories first, then by lower-cased name. */
  lemma LevelIsVisibleSorted(cfg: Config, dir: Node, path: string, depth: nat, prefix: string)
    requires dir.Dir? && dir.readable && !DepthCut(cfg, depth)
    ensures var level := LevelRows(Listing(cfg, dir, path, depth, prefix), depth);
      var shown := Visible(cfg, SortEntries(dir.children), path);
      Nodes(level) == shown
      && Sorted(shown)
      && multiset(shown) == multiset(Visible(cfg, dir.children, path))
  {
    var entries := SortEntries(dir.children);
    SortMembers(dir.children);
    EntriesLevel(cfg, dir, entries, 0, path, depth, prefix);
    assert entries[0..] == entries;
    VisibleSorted(cfg, entries, path);
    VisiblePermutation(cfg, entries, dir.children, path);
  }

  /** The last of the sorted entries exists and passes the filters. */
  predicate LastShown(cfg: Config, entries: seq<Node>, path: string) {
    entries != [] && Passes(cfg, entries[|entries| - 1], Join(path, entries[|entries| - 1].name))
  }

  /** At one level, every row but the last has the "├── " connector, and the
      last has "└── " exactly when `lastShown`. */
  predicate Connected(level: seq<Row>, prefix: string, lastShown: bool) {
    (forall k :: 0 <= k < |level| ==> level[k].Entry?)
    && (forall k :: 0 <= k < |level| - 1 ==> level[k].indent == prefix + Tee)
    && (level != [] ==> level[|level| - 1].indent == prefix + (if lastShown then Elbow else Tee))
  }

  lemma ConnectedCons(row: Row, rest: seq<Row>, prefix: string, lastShown: bool)
    requires row.Entry? && row.indent == prefix + Tee
    requires Connected(rest, prefix, lastShown)
    requires lastShown ==> rest != []
    ensures Connected([row] + rest, prefix, lastShown)
  {
    var level := [row] + rest;
    forall k | 0 < k < |level| ensures level[k] == rest[k - 1] {
    }
  }

  lemma {:induction false} EntriesConnectors(cfg: Config, dir: Node, entries: seq<Node>, i: nat, path: string, depth: nat, prefix: string)
    requires dir.Dir? && i <= |entries|
    requires forall e :: e in entries ==> e in dir.children
    requires !cfg.clean && !DepthCut(cfg, depth)
    ensures Connected(LevelRows(Entries(cfg, dir, entries, i, path, depth, prefix), depth), prefix, LastShown(cfg, entries, path))
    ensures i < |entries| && LastShown(cfg, entries, path) ==> LevelRows(Entries(cfg, dir, entries, i, path, depth, prefix), depth) != []
    decreases |entries| - i
  {
    var lastShown := LastShown(cfg, entries, path);
    var level := LevelRows(Entries(cfg, dir, entries, i, path, depth, prefix), depth);
    if i < |entries| {
      var e := entries[i];
      var entryPath := Join(path, e.name);
      var lastIndex := |entries| - 1;
      var rest := LevelRows(Entries(cfg, dir, entries, i + 1, path, depth, prefix), depth);
      LevelStep(cfg, dir, entries, i, path, depth, prefix);
      EntriesConnectors(cfg, dir, entries, i + 1, path, depth, prefix);
      if !Passes(cfg, e, entryPath) {
        assert level == [] + rest == rest;
      } else {
        var row := Entry(Indent(cfg, i, lastIndex, depth, prefix), e, entryPath, depth);
        assert level == [row] + rest;
        if i == lastIndex {
          assert Entries(cfg, dir, entries, i + 1, path, depth, prefix) == [];
          assert level == [row];
        } else {
          ConnectedCons(row, rest, prefix, lastShown);
        }
      }
    }
  }

  /** ls.py:106-111 compare the entry's index with the last index of ALL
      sorted entries, filtered or not. So in box style every line directly
      under a directory gets "├── " except the last one, which gets "└── "
      only when the directory's last sorted entry is itself shown; when that
      entry is filtered out, no line of the level gets "└── ". */
  lemma Connectors(cfg: Config, dir: Node, path: string, depth: nat, prefix: string)
    requires dir.Dir? && dir.readable && !cfg.clean && !DepthCut(cfg, depth)
    ensures var level := LevelRows(Listing(cfg, dir, path, depth, prefix), depth);
      var entries := SortEntries(dir.children);
      (forall k :: 0 <= k < |level| - 1 ==> level[k].indent == prefix + Tee)
      && (|level| > 0 ==>
            level[|level| - 1].indent == prefix + (if LastShown(cfg, entries, path) then Elbow else Tee))
      && (LastShown(cfg, entries, path) ==> |level| > 0)
  {
    SortMembers(dir.children);
    EntriesConnectors(cfg, dir, SortEntries(dir.children), 0, path, depth, prefix);
    assert Listing(cfg, dir, path, depth, prefix) == Entries(cfg, dir, SortEntries(dir.children), 0, path, depth, prefix);
  }

  /** A directory that cannot be listed yields exactly one line. */
  lemma UnreadableDirectory(cfg: Config, fmt: real -> string, dir: Node, path: string, depth: nat, prefix: string)
    requires dir.Dir? && !dir.readable && !DepthCut(cfg, depth)
    ensures Texts(cfg, fmt, Listing(cfg, dir, path, depth, prefix)) == [prefix + DeniedTag + path]
  {
  }
}
